=== FILE: README.md ===
# Templates client model

A Dafny model of the templates part of the Sendly Rust client
(`src/templates.rs`). This part manages named, localised message templates on
the Sendly service. It covers:

- the data model: the `TemplateType` enum, the `Template` entity, the create
  and update requests, the list options, and the list, pagination and delete
  envelopes;
- the serde rules that move that data model to and from JSON: field renames,
  legacy aliases, defaults, and optional fields left out when unset;
- the query pairs `ListTemplatesOptions` produces;
- the HTTP call each `TemplatesResource` operation makes.

Modules, one per file:

- `Wrappers`: `Option` and `Result`.
- `Wire`: a JSON value model, plus the field rules of serde's derived
  decoder. An alias names the same field, so an object holding both
  spellings is a duplicate-field error. An absent field with a default takes
  the default. Unknown keys are ignored. An out-of-range `i32` is an invalid
  value.
- `Decimal`: the decimal rendering of the `limit` query value, and a reader
  for it.
- `TemplateKind`: `TemplateType`, its `Default`, and its lower-case wire
  tokens.
- `TemplateEntity`: `Template`, its encoder, its decoder, and
  `is_preset` / `is_custom`.
- `CreateRequest` and `UpdateRequest`: the request builders and the payloads
  they serialise to.
- `CloneRequest`: the body `clone_with_name` sends.
- `ListOptions`: the list options, the `limit` clamp to 100, and
  `to_query_params`.
- `Envelopes`: `TemplatePagination`, `TemplateList` and
  `DeleteTemplateResponse`.
- `Resource`: the facade. Every operation is modelled as the call it builds,
  handed to a transport `send`, with the reply then decoded.

Each decoder comes with three things:

- an `...Accepts` predicate, which holds exactly when decoding succeeds;
- a canonical form of the input, with aliases resolved, defaults filled in
  and unknown keys dropped, which the decoded value re-encodes to;
- a round trip through an encoder.

The create and update payloads and the list query pairs each come with a
reader that inverts them. The `clone_with_name` body has no reader: its
contract fixes the whole output.

The code declares each legacy key with `#[serde(alias = ...)]`. Under it,
an object holding both the canonical key and the alias of one field is
rejected with a duplicate-field error. The model does the same.

## Model

| member | source | states |
|---|---|---|
| Wire.FieldValue | src/templates.rs:24-37 | an aliased field is read under either spelling; both spellings present always fails, never a silent choice of one (the model names the failure `DuplicateField` of the canonical key) |
| Wire.AsI32 | src/templates.rs:174-175 | an `i32` field accepts exactly the integers in 32-bit signed range; any other number is an invalid value, not wrapped |
| Wire.DecodeEach | src/templates.rs:167 | a `Vec` decodes iff every element decodes, to the elements' values in order |
| Decimal.ToDecimal | src/templates.rs:148-150 | the `limit` value is rendered as a non-empty string of decimal digits with no leading zero |
| Decimal.DecimalRoundTrip | src/templates.rs:148-150 | reading the rendered limit back gives the limit |
| Decimal.DecimalInjective | src/templates.rs:148-150 | distinct limits render to distinct strings |
| TemplateKind.DefaultType | src/templates.rs:13-17 | the default variant is `Custom`; its consequence for decoding is stated by `TemplateEntity.TemplateDefaults` |
| TemplateKind.ParseWireToken | src/templates.rs:6-11 | the enum accepts exactly the two tokens `preset` and `custom`, each as its own variant |
| TemplateKind.WireTokenIsLowercasedName | src/templates.rs:7-10 | each variant's wire token is its Rust name lower-cased, as `rename_all = "lowercase"` requires |
| TemplateKind.WireTokenRoundTrip | src/templates.rs:6-11 | every variant's token reads back as that variant |
| TemplateKind.WireTokenInjective | src/templates.rs:6-11 | the two variants have different tokens |
| TemplateEntity.EncodeTemplate | src/templates.rs:19-38 | the derived `Serialize` writes exactly the ten Rust field names and no alias; `DecodeEncodeTemplate` and `EncodeTemplateInjective` state that it loses nothing |
| TemplateEntity.IsPreset | src/templates.rs:41-43 | `is_preset` holds iff the template's wire token is `preset` |
| TemplateEntity.IsCustom | src/templates.rs:45-47 | `is_custom` holds iff the template's wire token is `custom` |
| TemplateEntity.AsTemplateType | src/templates.rs:6-11 | a type value decodes iff it is one of the two tokens; any other string is `UnknownVariant`, never the default |
| TemplateEntity.RequiredString | src/templates.rs:21-23 | a required string field reads iff it is absent or a string, and reports whether it was present |
| TemplateEntity.TypeField | src/templates.rs:24-25 | `template_type` or its alias `type` reads iff spelled once and a valid token; absent gives `Custom` |
| TemplateEntity.OptStringField | src/templates.rs:26-27 | an optional string field reads iff spelled once and null or a string; absent or null is `None` |
| TemplateEntity.StringsField | src/templates.rs:28-29 | `variables` reads iff absent or an array of strings; absent is the empty list |
| TemplateEntity.BoolField | src/templates.rs:30-33 | a defaulted bool reads iff spelled once and a bool; absent is `false` |
| TemplateEntity.DecodeTemplate | src/templates.rs:19-38 | decoding succeeds exactly on the objects `TemplateAccepts` describes, and the result re-encodes to the input with aliases resolved, defaults filled and unknown keys dropped |
| TemplateEntity.DecodeTemplateValue | src/templates.rs:202-207 | a template reply decodes iff it is an accepted object, with the same result |
| TemplateEntity.ExactlyOneKind | src/templates.rs:40-48 | exactly one of `is_preset` and `is_custom` holds, each iff the encoded type token says so |
| TemplateEntity.EncodeTemplateInjective | src/templates.rs:19-38 | the derived encoding loses nothing: distinct templates encode to distinct objects |
| TemplateEntity.EncodedAccepted | src/templates.rs:19-38 | every object the encoder writes is accepted by the decoder |
| TemplateEntity.EncodedCanonical | src/templates.rs:19-38 | the encoder's output is already canonical: no aliases, every field present |
| TemplateEntity.DecodeEncodeTemplate | src/templates.rs:19-38 | decoding the encoding of a template gives the template back |
| TemplateEntity.DecodeEncodeTemplateValue | src/templates.rs:19-38 | a template reply carrying the encoding of a template decodes to that template |
| TemplateEntity.TemplateRequiredKeys | src/templates.rs:21-23 | an object without `id`, `name` or `body` is rejected |
| TemplateEntity.TemplateRejectsUnknownType | src/templates.rs:24-25 | a type token other than `preset` or `custom` is rejected under either key spelling |
| TemplateEntity.TemplateDuplicateAlias | src/templates.rs:24-37 | a field given under both its key and its alias is rejected, whatever the values |
| TemplateEntity.TemplateDefaults | src/templates.rs:13-37 | absent fields take their defaults: type `Custom`, no locale, no variables, not default, not published, no timestamps |
| TemplateEntity.TemplateAliasEquivalent | src/templates.rs:24-37 | a value under a legacy alias decodes exactly as the same value under the canonical key |
| CreateRequest.New | src/templates.rs:60-68 | `new` keeps name and body and leaves locale and published unset |
| CreateRequest.Payload | src/templates.rs:50-58 | the payload has `name` and `body`, plus `locale` and `isPublished` exactly when set, and never a null |
| CreateRequest.Locale | src/templates.rs:70-73 | the `locale` setter sets that field and that payload key, and changes nothing else |
| CreateRequest.Published | src/templates.rs:75-78 | the `published` setter sets that field and the `isPublished` key, and changes nothing else |
| CreateRequest.PayloadRoundTrip | src/templates.rs:50-58 | the payload carries the whole request: reading it back gives the request |
| CreateRequest.NewPayload | src/templates.rs:60-68 | a fresh request sends exactly `name` and `body` |
| CreateRequest.SettersOverwriteAndCommute | src/templates.rs:70-78 | a second call of a setter overrides the first, and the two setters commute |
| UpdateRequest.New | src/templates.rs:93-96 | `new` sets no field, so no payload key; `SingleFieldPayloads` states that it sends `{}` |
| UpdateRequest.Payload | src/templates.rs:81-91 | the payload's keys are exactly the fields that are set, under their wire names, never null |
| UpdateRequest.Name | src/templates.rs:98-101 | the `name` setter sets that field and that payload key only |
| UpdateRequest.Body | src/templates.rs:103-106 | the `body` setter sets that field and that payload key only |
| UpdateRequest.Locale | src/templates.rs:108-111 | the `locale` setter sets that field and that payload key only |
| UpdateRequest.Published | src/templates.rs:113-116 | the `published` setter sets that field and the `isPublished` key only |
| UpdateRequest.PayloadRoundTrip | src/templates.rs:81-91 | the payload carries exactly the update, so unset and set are never confused |
| UpdateRequest.SingleFieldPayloads | src/templates.rs:93-116 | `new()` sends the empty object; one setter call sends exactly its one key |
| UpdateRequest.SettersOverwrite | src/templates.rs:98-116 | a second call of a setter overrides the first |
| CloneRequest.Payload | src/templates.rs:256-260 | the `clone_with_name` body has the one key `name`, holding the given name as a string |
| ListOptions.New | src/templates.rs:127-129 | `new` sets no option; `NewHasEmptyQuery` states that it sends no query pair |
| ListOptions.Limit | src/templates.rs:131-134 | the limit setter keeps a value up to 100 and caps a larger one to 100, never rejecting; other options unchanged |
| ListOptions.TemplateTypeFilter | src/templates.rs:136-139 | the type setter sets the type filter only |
| ListOptions.Locale | src/templates.rs:141-144 | the locale setter sets the locale filter only |
| ListOptions.QueryToken | src/templates.rs:151-156 | the hand-written token of each variant is its Rust name lower-cased; `QueryTokenAgreesWithWire` states it equals serde's token and is injective |
| ListOptions.QueryTokenAgreesWithWire | src/templates.rs:151-156 | the query token table is injective and agrees with the enum's lower-case wire token |
| ListOptions.ToQueryParams | src/templates.rs:146-162 | one pair per option set, keys in the order limit, type, locale, none repeated |
| ListOptions.QueryValues | src/templates.rs:146-162 | each set option is sent under its key with its value (limit in decimal, type as token); an unset option sends nothing |
| ListOptions.QueryRoundTrip | src/templates.rs:146-162 | the query carries the options exactly: reading it back gives them |
| ListOptions.NewHasEmptyQuery | src/templates.rs:126-129 | default options produce no query pairs |
| ListOptions.CappedPresetQuery | src/templates.rs:131-162 | `new().limit(250).template_type(Preset)` gives `limit=100` then `type=preset` |
| ListOptions.BuiltLimitIsCapped | src/templates.rs:131-134 | options built by any sequence of setter calls hold the last limit asked for, capped at 100 |
| ListOptions.BuiltLimitQuery | src/templates.rs:131-150 | such options send the decimal of the last limit asked for, capped at 100 |
| Envelopes.DecodePagination | src/templates.rs:172-178 | pagination decodes iff its fields fit (`limit` an `i32`, `has_more` or `hasMore` once, a bool), defaults 0 and `false` |
| Envelopes.PaginationRoundTrip | src/templates.rs:172-178 | the pagination decoder inverts the reference encoding |
| Envelopes.PaginationDefaults | src/templates.rs:172-178 | `{}` is limit 0 with nothing more; `hasMore` reads as `has_more`; both spellings fail |
| Envelopes.DecodeTemplates | src/templates.rs:167 | the template array decodes iff every element is an accepted template object, element by element |
| Envelopes.PaginationField | src/templates.rs:168-169 | an absent or null `pagination` is `None`; an object is decoded; anything else fails |
| Envelopes.DecodeTemplateList | src/templates.rs:165-170 | the list decodes iff `templates` is an array of accepted templates and `pagination` fits; no pagination stays distinct from a default page |
| Envelopes.TemplateObjectsDecode | src/templates.rs:167 | decoding an array of encoded templates gives the templates back |
| Envelopes.TemplateListRoundTrip | src/templates.rs:165-170 | the list decoder inverts the reference encoding, pagination included |
| Envelopes.DecodeDeleteResponse | src/templates.rs:180-185 | the delete reply decodes iff `success` is a bool and `message` is absent, null or a string |
| Envelopes.DeleteRoundTrip | src/templates.rs:180-185 | the delete decoder inverts the reference encoding |
| Envelopes.DeleteExamples | src/templates.rs:180-185 | `{"success": true}` is a success with no message; `{}` is rejected |
| Envelopes.DecodeTemplateListValue | src/templates.rs:196-200 | a list reply decodes iff it is an accepted list object; the templates re-encode to the canonical elements in order, and the pagination is `None` iff absent or null, otherwise re-encoding to its canonical object |
| Envelopes.ListReplyRoundTrip | src/templates.rs:196-200 | a list reply carrying the encoding of a list decodes to that list |
| Envelopes.DecodeDeleteValue | src/templates.rs:223-229 | a delete reply decodes iff it is an accepted delete object, and the result re-encodes to that object with `message` filled as null when absent and unknown keys dropped |
| Envelopes.DeleteReplyRoundTrip | src/templates.rs:223-229 | a delete reply carrying the encoding of a response decodes to that response |
| Resource.ItemPath | src/templates.rs:202-208 | an item path is `/verify/templates/` followed by the id, unchanged |
| Resource.PublishPath | src/templates.rs:231-237 | the publish path is the item path followed by `/publish` |
| Resource.UnpublishPath | src/templates.rs:239-245 | the unpublish path is the item path followed by `/unpublish` |
| Resource.ClonePath | src/templates.rs:247-266 | the clone path is `/templates/`, the id, then `/clone`, with no `/verify` prefix |
| Resource.CallOf | src/templates.rs:196-266 | the call each operation builds; `CallDeterminesOperation` states that no two operations build the same call |
| Resource.Perform | src/templates.rs:196-266 | a transport failure is returned unchanged; otherwise the reply's decoding is returned, a decode failure wrapped as such |
| Resource.List | src/templates.rs:196-200 | `list` sends GET `/verify/templates` with the options' query pairs and decodes a `TemplateList` |
| Resource.Get | src/templates.rs:202-208 | `get` sends GET `/verify/templates/{id}` with no query and decodes a `Template` |
| Resource.Create | src/templates.rs:210-213 | `create` POSTs the request's payload to `/verify/templates` and decodes a `Template` |
| Resource.Update | src/templates.rs:215-221 | `update` PATCHes the update's payload to `/verify/templates/{id}` and decodes a `Template` |
| Resource.Delete | src/templates.rs:223-229 | `delete` sends DELETE `/verify/templates/{id}` and decodes a `DeleteTemplateResponse` |
| Resource.Publish | src/templates.rs:231-237 | `publish` POSTs null to `/verify/templates/{id}/publish` and decodes a `Template` |
| Resource.Unpublish | src/templates.rs:239-245 | `unpublish` POSTs null to `/verify/templates/{id}/unpublish` and decodes a `Template` |
| Resource.Clone | src/templates.rs:247-253 | `clone` POSTs null to `/templates/{id}/clone` and decodes a `Template` |
| Resource.CloneWithName | src/templates.rs:255-266 | `clone_with_name` POSTs `{"name": name}` to `/templates/{id}/clone` and decodes a `Template` |
| Resource.PathPrefixes | src/templates.rs:196-266 | every operation but the clones addresses `/verify/templates`; the clones address `/templates/` and not `/verify` |
| Resource.PrefixesExclusive | src/templates.rs:247-266 | no path starts with both `/templates/` and `/verify` |
| Resource.CallDeterminesOperation | src/templates.rs:196-266 | two operations that make the same call are the same operation with the same arguments, for any identifiers |
| Resource.ActionPathsDiffer | src/templates.rs:231-245 | a publish path and an unpublish path never coincide, and each determines its id |
| Resource.ClonePathInjective | src/templates.rs:247-266 | the clone path determines the id |
| Resource.NoNewFailures | src/templates.rs:196-266 | every operation fails iff the transport fails or the reply does not decode |
| Resource.FacadeExamples | src/templates.rs:202-266 | `get("tmpl_123")` and `clone_with_name("tmpl_123", "Copy")` make the calls `get` and `clone_with_name` build for these arguments |

## Left out

- Transport: the `Sendly` client, HTTP, async and the lifetime of
  `TemplatesResource`. The client is a parameter `send`, and `crate::error`
  is reduced to a transport failure or a decoding failure. `client.rs` and
  `error.rs` are not part of this model.
- HTTP status handling. It lives in the client, not in this file.
- JSON text. Values are modelled after parsing. The model does not cover
  floats, number syntax, or repeated keys in one literal object (a map holds
  one value per key).
- URL-encoding of query pairs. The client does it.
- Two further input shapes serde's derived decoders accept: a struct given
  as a JSON array, and `TemplateType` given as an externally tagged object.
  Neither is part of the API's wire format.
- `TemplateEntity.DecodeTemplate`: the contract says when decoding fails,
  but not which error it returns when several fields are wrong. serde
  reports the first error in key order, and a map has no key order. The same
  holds for `Envelopes.DecodePagination`, `Envelopes.DecodeTemplateList` and
  `Envelopes.DecodeDeleteResponse`.
- Wire.FieldValue: when both spellings of a field are present, the model
  always reports `DuplicateField`. serde reads the first spelling's value as
  soon as its key arrives, and checks for a duplicate only when the second
  spelling comes, so an ill-typed first value fails with its type error
  instead. Which error comes first depends on key order, and a map has no key
  order. Success and failure agree in every case. The same holds for
  `TemplateEntity.TypeField`, `TemplateEntity.BoolField` and
  `TemplateEntity.OptStringField`, which pass its error on.
- The derived `Debug`, `Clone`, `PartialEq` and `Eq` implementations.
- `TemplatesResource::new`. It only stores the client.

Some members are not in the source. They are reference definitions, written
independently, that the properties are stated against:

- `CreateRequest.ParsePayload`;
- `UpdateRequest.ParsePayload`;
- `ListOptions.FromQueryParams`;
- `Decimal.ParseDecimal`;
- the pagination, list and delete encoders in `Envelopes`. The source only
  ever decodes those types.

=== FILE: clone_request.dfy ===
/** `CloneRequest` (src/templates.rs): the body `clone_with_name` sends, the
    derived `Serialize` of a struct whose one field is `name`. */
module CloneRequest {
  import opened Wire

  function Payload(name: string): (m: Object)
    ensures m.Keys == {"name"}
    ensures m["name"] == JStr(name)
  {
    map["name" := JStr(name)]
  }
}

=== FILE: create_request.dfy ===
/** `CreateTemplateRequest` (src/templates.rs): a name and a body, plus an
    optional locale and published flag that are left out of the payload
    entirely when unset. */
module CreateRequest {
  import opened Wrappers
  import opened Wire

  datatype CreateTemplateRequest = CreateTemplateRequest(
    name: string,
    body: string,
    locale: Option<string>,
    isPublished: Option<bool>)

  /** `CreateTemplateRequest::new`: both optional fields unset. */
  function New(name: string, body: string): (r: CreateTemplateRequest)
    ensures r.name == name && r.body == body
    ensures r.locale.None? && r.isPublished.None?
  {
    CreateTemplateRequest(name, body, None, None)
  }

  /** The JSON object serde writes: `skip_serializing_if = "Option::is_none"`
      drops an unset optional field, and `is_published` goes out as
      `isPublished`. */
  function Payload(r: CreateTemplateRequest): (m: Object)
    ensures m.Keys == {"name", "body"}
                      + (if r.locale.Some? then {"locale"} else {})
                      + (if r.isPublished.Some? then {"isPublished"} else {})
    ensures forall k :: k in m ==> m[k] != JNull
  {
    var required := map["name" := JStr(r.name), "body" := JStr(r.body)];
    var withLocale := if r.locale.Some? then required["locale" := JStr(r.locale.value)] else required;
    if r.isPublished.Some? then withLocale["isPublished" := JBool(r.isPublished.value)] else withLocale
  }

  /** The `locale` setter: sets its own field and its own payload key only. */
  function Locale(r: CreateTemplateRequest, locale: string): (r': CreateTemplateRequest)
    ensures r'.locale == Some(locale)
    ensures r'.name == r.name && r'.body == r.body && r'.isPublished == r.isPublished
    ensures Payload(r') == Payload(r)["locale" := JStr(locale)]
  {
    r.(locale := Some(locale))
  }

  /** The `published` setter: sets its own field and its own payload key
      only. */
  function Published(r: CreateTemplateRequest, published: bool): (r': CreateTemplateRequest)
    ensures r'.isPublished == Some(published)
    ensures r'.name == r.name && r'.body == r.body && r'.locale == r.locale
    ensures Payload(r') == Payload(r)["isPublished" := JBool(published)]
  {
    r.(isPublished := Some(published))
  }

  /** How a receiver reads the payload back: only the four known keys, each of
      its type, `name` and `body` required. */
  function ParsePayload(m: Object): (r: Option<CreateTemplateRequest>)
    ensures r.Some? ==> m.Keys <= {"name", "body", "locale", "isPublished"}
  {
    if !(m.Keys <= {"name", "body", "locale", "isPublished"}) then None
    else if !("name" in m && m["name"].JStr? && "body" in m && m["body"].JStr?) then None
    else if "locale" in m && !m["locale"].JStr? then None
    else if "isPublished" in m && !m["isPublished"].JBool? then None
    else Some(CreateTemplateRequest(
      m["name"].s,
      m["body"].s,
      if "locale" in m then Some(m["locale"].s) else None,
      if "isPublished" in m then Some(m["isPublished"].b) else None))
  }

  /** The payload carries the whole request: reading it back gives the
      request. */
  lemma PayloadRoundTrip(r: CreateTemplateRequest)
    ensures ParsePayload(Payload(r)) == Some(r)
  {
  }

  /** A request built from a name and body alone sends exactly those two
      keys; no `locale` or `isPublished` key appears. */
  lemma NewPayload(name: string, body: string)
    ensures Payload(New(name, body)) == map["name" := JStr(name), "body" := JStr(body)]
  {
  }

  /** Setting a field twice keeps the later value; the two setters commute. */
  lemma SettersOverwriteAndCommute(r: CreateTemplateRequest, a: string, b: string, p: bool, q: bool)
    ensures Locale(Locale(r, a), b) == Locale(r, b)
    ensures Published(Published(r, p), q) == Published(r, q)
    ensures Published(Locale(r, a), p) == Locale(Published(r, p), a)
  {
  }
}

=== FILE: decimal.dfy ===
/** The decimal rendering Rust's `to_string` gives an unsigned integer, and a
    reader for it that a receiver of the query string would use. */
module Decimal {
  import opened Wrappers

  predicate IsDigit(c: char) {
    '0' <= c <= '9'
  }

  function DigitChar(d: nat): (c: char)
    requires d < 10
    ensures IsDigit(c)
  {
    ('0' as int + d) as char
  }

  function DigitValue(c: char): (d: nat)
    requires IsDigit(c)
    ensures d < 10
  {
    c as int - '0' as int
  }

  /** Decimal digits of `n`, most significant first, with no sign and no
      leading zero. */
  function ToDecimal(n: nat): (s: string)
    ensures |s| >= 1
    ensures forall i :: 0 <= i < |s| ==> IsDigit(s[i])
    ensures s[0] == '0' ==> n == 0
    ensures |s| > 1 ==> s[0] != '0'
    decreases n
  {
    if n < 10 then [DigitChar(n)] else ToDecimal(n / 10) + [DigitChar(n % 10)]
  }

  /** The number a string of digits denotes. */
  function DigitsValue(s: string): nat
    requires forall i :: 0 <= i < |s| ==> IsDigit(s[i])
  {
    if |s| == 0 then 0 else DigitsValue(s[..|s| - 1]) * 10 + DigitValue(s[|s| - 1])
  }

  /** Reads a non-empty string of decimal digits; anything else is rejected. */
  function ParseDecimal(s: string): (r: Option<nat>)
    ensures r.Some? <==> |s| >= 1 && forall i :: 0 <= i < |s| ==> IsDigit(s[i])
  {
    if |s| >= 1 && forall i :: 0 <= i < |s| ==> IsDigit(s[i]) then Some(DigitsValue(s)) else None
  }

  lemma {:induction false} DigitsOfDecimal(n: nat)
    ensures DigitsValue(ToDecimal(n)) == n
    decreases n
  {
    var s := ToDecimal(n);
    if n >= 10 {
      assert s[..|s| - 1] == ToDecimal(n / 10);
      DigitsOfDecimal(n / 10);
    }
  }

  /** Reading back the rendering of `n` gives `n`. */
  lemma DecimalRoundTrip(n: nat)
    ensures ParseDecimal(ToDecimal(n)) == Some(n)
  {
    DigitsOfDecimal(n);
  }

  /** Distinct numbers render differently. */
  lemma DecimalInjective(a: nat, b: nat)
    requires ToDecimal(a) == ToDecimal(b)
    ensures a == b
  {
    DecimalRoundTrip(a);
    DecimalRoundTrip(b);
  }
}

=== FILE: envelopes.dfy ===
/** The response envelopes of src/templates.rs: `TemplatePagination`,
    `TemplateList` and `DeleteTemplateResponse`, each decoded by serde's
    derived decoder. None of them is ever serialised by the client; the
    `...Object` functions below are reference encoders that state what each
    decoder inverts. */
module Envelopes {
  import opened Wrappers
  import opened Wire
  import opened TemplateEntity

  // ---- TemplatePagination ----

  datatype TemplatePagination = TemplatePagination(limit: I32, hasMore: bool)

  predicate PaginationAccepts(m: Object) {
    && FieldOk(m, "limit", None, KI32)
    && FieldOk(m, "has_more", Some("hasMore"), KBool)
  }

  function PaginationObject(p: TemplatePagination): Object {
    map["limit" := JNum(p.limit), "has_more" := JBool(p.hasMore)]
  }

  /** The input with the alias resolved and the defaults (0, false) filled. */
  function PaginationCanonical(m: Object): Object {
    map["limit" := Filled(m, "limit", None, JNum(0)),
        "has_more" := Filled(m, "has_more", Some("hasMore"), JBool(false))]
  }

  /** Both fields default when absent; `hasMore` is accepted for `has_more`. */
  function DecodePagination(m: Object): (r: Result<TemplatePagination, DecodeError>)
    ensures r.Success? <==> PaginationAccepts(m)
    ensures r.Success? ==> PaginationObject(r.value) == PaginationCanonical(m)
  {
    var limit := Pick(m, "limit", None);
    var limit :- if limit.None? then Success(0) else AsI32(limit.value, "limit");
    var hasMore :- FieldValue(m, "has_more", Some("hasMore"));
    var hasMore :- if hasMore.None? then Success(false) else AsBool(hasMore.value, "has_more");
    Success(TemplatePagination(limit, hasMore))
  }

  lemma PaginationRoundTrip(p: TemplatePagination)
    ensures DecodePagination(PaginationObject(p)) == Success(p)
  {
    assert "hasMore" !in PaginationObject(p);
  }

  /** An empty object is a first page of size 0 with nothing more; `hasMore`
      is read as `has_more`. */
  lemma PaginationDefaults(b: bool)
    ensures DecodePagination(map[]) == Success(TemplatePagination(0, false))
    ensures DecodePagination(map["hasMore" := JBool(b)]) == Success(TemplatePagination(0, b))
    ensures DecodePagination(map["has_more" := JBool(b), "hasMore" := JBool(b)]).Failure?
  {
    assert "has_more" !in map["hasMore" := JBool(b)];
  }

  // ---- TemplateList ----

  datatype TemplateList = TemplateList(templates: seq<Template>, pagination: Option<TemplatePagination>)

  /** Decodes the `templates` array; the first element that is not an
      acceptable template object fails it. */
  function DecodeTemplates(items: seq<JVal>): (r: Result<seq<Template>, DecodeError>)
    ensures r.Success? <==> forall i :: 0 <= i < |items| ==> items[i].JObj? && TemplateAccepts(items[i].fields)
    ensures r.Success? ==> |r.value| == |items|
    ensures r.Success? ==> forall i :: 0 <= i < |items| ==> DecodeTemplateValue(items[i]) == Success(r.value[i])
  {
    DecodeEach(items, DecodeTemplateValue)
  }

  /** `Option<TemplatePagination>` with a default: absent or null is `None`. */
  function PaginationField(m: Object): (r: Result<Option<TemplatePagination>, DecodeError>)
    ensures ("pagination" !in m || m["pagination"].JNull?) ==> r == Success(None)
    ensures "pagination" in m && m["pagination"].JObj? ==>
      r == (var p :- DecodePagination(m["pagination"].fields); Success(Some(p)))
    ensures "pagination" in m && !m["pagination"].JNull? && !m["pagination"].JObj? ==> r.Failure?
  {
    if "pagination" !in m then Success(None)
    else match m["pagination"]
      case JNull => Success(None)
      case JObj(pm) => var p :- DecodePagination(pm); Success(Some(p))
      case _ => Failure(InvalidType("pagination"))
  }

  predicate TemplateListAccepts(m: Object) {
    && "templates" in m && m["templates"].JArr?
    && (forall i :: 0 <= i < |m["templates"].items| ==>
          m["templates"].items[i].JObj? && TemplateAccepts(m["templates"].items[i].fields))
    && ("pagination" in m ==>
          m["pagination"].JNull? || (m["pagination"].JObj? && PaginationAccepts(m["pagination"].fields)))
  }

  /** `templates` is required; a missing `pagination` means none, which is a
      different value from a page with limit 0 and nothing more. */
  function DecodeTemplateList(m: Object): (r: Result<TemplateList, DecodeError>)
    ensures r.Success? <==> TemplateListAccepts(m)
    ensures r.Success? ==> |r.value.templates| == |m["templates"].items|
    ensures r.Success? ==> forall i :: 0 <= i < |r.value.templates| ==>
      EncodeTemplate(r.value.templates[i]) == TemplateCanonical(m["templates"].items[i].fields)
    ensures r.Success? ==> (r.value.pagination.None? <==> "pagination" !in m || m["pagination"].JNull?)
    ensures r.Success? && r.value.pagination.Some? ==>
      PaginationObject(r.value.pagination.value) == PaginationCanonical(m["pagination"].fields)
  {
    var templates :- if "templates" !in m then Success(None)
                     else match m["templates"]
                       case JArr(items) => var ts :- DecodeTemplates(items); Success(Some(ts))
                       case _ => Failure(InvalidType("templates"));
    var pagination :- PaginationField(m);
    if templates.None? then Failure(MissingField("templates"))
    else Success(TemplateList(templates.value, pagination))
  }

  /** A reference encoder for the list envelope. */
  function TemplateListObject(l: TemplateList): Object {
    map["templates" := JArr(TemplateObjects(l.templates)),
        "pagination" := match l.pagination
                        case None => JNull
                        case Some(p) => JObj(PaginationObject(p))]
  }

  function TemplateObjects(ts: seq<Template>): (vs: seq<JVal>)
    ensures |vs| == |ts|
    ensures forall i :: 0 <= i < |ts| ==> vs[i] == JObj(EncodeTemplate(ts[i]))
  {
    if |ts| == 0 then [] else [JObj(EncodeTemplate(ts[0]))] + TemplateObjects(ts[1..])
  }

  lemma TemplateObjectsDecode(ts: seq<Template>)
    ensures DecodeTemplates(TemplateObjects(ts)) == Success(ts)
  {
    var vs := TemplateObjects(ts);
    forall i | 0 <= i < |ts|
      ensures DecodeTemplateValue(vs[i]) == Success(ts[i])
    {
      DecodeEncodeTemplateValue(ts[i]);
    }
    DecodeEachOf(vs, DecodeTemplateValue, ts);
  }

  lemma TemplateListRoundTrip(l: TemplateList)
    ensures DecodeTemplateList(TemplateListObject(l)) == Success(l)
  {
    TemplateObjectsDecode(l.templates);
    if l.pagination.Some? {
      PaginationRoundTrip(l.pagination.value);
    }
  }

  // ---- DeleteTemplateResponse ----

  datatype DeleteTemplateResponse = DeleteTemplateResponse(success: bool, message: Option<string>)

  predicate DeleteAccepts(m: Object) {
    && FieldOk(m, "success", None, KBool) && Present(m, "success", None)
    && FieldOk(m, "message", None, KOptString)
  }

  function DeleteObject(d: DeleteTemplateResponse): Object {
    map["success" := JBool(d.success), "message" := OptStr(d.message)]
  }

  function DeleteCanonical(m: Object): Object {
    map["success" := Filled(m, "success", None, JNull),
        "message" := Filled(m, "message", None, JNull)]
  }

  /** `success` is required; `message` is optional. */
  function DecodeDeleteResponse(m: Object): (r: Result<DeleteTemplateResponse, DecodeError>)
    ensures r.Success? <==> DeleteAccepts(m)
    ensures r.Success? ==> DeleteObject(r.value) == DeleteCanonical(m)
  {
    var success := Pick(m, "success", None);
    var success :- if success.None? then Success(None)
                   else var b :- AsBool(success.value, "success"); Success(Some(b));
    var message := Pick(m, "message", None);
    var message :- if message.None? then Success(None) else AsOptString(message.value, "message");
    if success.None? then Failure(MissingField("success"))
    else Success(DeleteTemplateResponse(success.value, message))
  }

  lemma DeleteRoundTrip(d: DeleteTemplateResponse)
    ensures DecodeDeleteResponse(DeleteObject(d)) == Success(d)
  {
  }

  /** `{"success": true}` is a success with no message; `{}` is rejected. */
  lemma DeleteExamples()
    ensures DecodeDeleteResponse(map["success" := JBool(true)]) == Success(DeleteTemplateResponse(true, None))
    ensures DecodeDeleteResponse(map[]).Failure?
  {
  }

  // ---- Response bodies ----

  /** A `list` reply: a list object, decoded as `DecodeTemplateList` pins it. */
  function DecodeTemplateListValue(v: JVal): (r: Result<TemplateList, DecodeError>)
    ensures r.Success? <==> v.JObj? && TemplateListAccepts(v.fields)
    ensures r.Success? ==> |r.value.templates| == |v.fields["templates"].items|
    ensures r.Success? ==> forall i :: 0 <= i < |r.value.templates| ==>
      EncodeTemplate(r.value.templates[i]) == TemplateCanonical(v.fields["templates"].items[i].fields)
    ensures r.Success? ==> (r.value.pagination.None? <==> "pagination" !in v.fields || v.fields["pagination"].JNull?)
    ensures r.Success? && r.value.pagination.Some? ==>
      PaginationObject(r.value.pagination.value) == PaginationCanonical(v.fields["pagination"].fields)
  {
    match v
    case JObj(m) => DecodeTemplateList(m)
    case _ => Failure(InvalidType("TemplateList"))
  }

  /** A `delete` reply: a delete object, read into the value its canonical form gives. */
  function DecodeDeleteValue(v: JVal): (r: Result<DeleteTemplateResponse, DecodeError>)
    ensures r.Success? <==> v.JObj? && DeleteAccepts(v.fields)
    ensures r.Success? ==> DeleteObject(r.value) == DeleteCanonical(v.fields)
  {
    match v
    case JObj(m) => DecodeDeleteResponse(m)
    case _ => Failure(InvalidType("DeleteTemplateResponse"))
  }

  /** A list reply carrying the encoding of a list decodes to that list. */
  lemma ListReplyRoundTrip(l: TemplateList)
    ensures DecodeTemplateListValue(JObj(TemplateListObject(l))) == Success(l)
  {
    TemplateListRoundTrip(l);
  }

  /** A delete reply carrying the encoding of a response decodes to that response. */
  lemma DeleteReplyRoundTrip(d: DeleteTemplateResponse)
    ensures DecodeDeleteValue(JObj(DeleteObject(d))) == Success(d)
  {
    DeleteRoundTrip(d);
  }
}

=== FILE: list_options.dfy ===
/** `ListTemplatesOptions` (src/templates.rs): the optional page size, type
    filter and locale filter of a listing, and the ordered query pairs they
    become. */
module ListOptions {
  import opened Wrappers
  import opened Wire
  import opened Decimal
  import opened TemplateKind

  datatype ListTemplatesOptions = ListTemplatesOptions(
    limit: Option<U32>,
    templateType: Option<TemplateType>,
    locale: Option<string>)

  /** The largest page size the `limit` setter lets through. */
  const MaxLimit: U32 := 100

  type QueryPair = (string, string)

  /** `ListTemplatesOptions::new` (the derived `Default`): nothing set. */
  function New(): (r: ListTemplatesOptions)
    ensures SetCount(r) == 0
  {
    ListTemplatesOptions(None, None, None)
  }

  /** The `limit` setter: a value above the maximum is capped to it, never
      rejected; a value within it is kept. */
  function Limit(o: ListTemplatesOptions, limit: U32): (r: ListTemplatesOptions)
    ensures r.limit.Some? && r.limit.value <= MaxLimit
    ensures limit <= MaxLimit ==> r.limit == Some(limit)
    ensures limit > MaxLimit ==> r.limit == Some(MaxLimit)
    ensures r.templateType == o.templateType && r.locale == o.locale
  {
    o.(limit := Some(if limit < MaxLimit then limit else MaxLimit))
  }

  function TemplateTypeFilter(o: ListTemplatesOptions, t: TemplateType): (r: ListTemplatesOptions)
    ensures r.templateType == Some(t)
    ensures r.limit == o.limit && r.locale == o.locale
  {
    o.(templateType := Some(t))
  }

  function Locale(o: ListTemplatesOptions, locale: string): (r: ListTemplatesOptions)
    ensures r.locale == Some(locale)
    ensures r.limit == o.limit && r.templateType == o.templateType
  {
    o.(locale := Some(locale))
  }

  /** The hand-written token table of `to_query_params`. */
  function QueryToken(t: TemplateType): (r: string)
    ensures r == Lowercase(VariantName(t))
  {
    WireTokenIsLowercasedName(t);
    match t
    case Preset => "preset"
    case Custom => "custom"
  }

  /** The table is injective and agrees with the token serde uses for the
      enum, which is the variant name lower-cased. */
  lemma QueryTokenAgreesWithWire(t: TemplateType, u: TemplateType)
    ensures QueryToken(t) == Lowercase(VariantName(t))
    ensures QueryToken(t) == WireToken(t)
    ensures QueryToken(t) == QueryToken(u) ==> t == u
  {
    WireTokenIsLowercasedName(t);
  }

  /** Where a key may appear in the query: limit, then type, then locale. */
  function KeyRank(k: string): nat {
    if k == "limit" then 0 else if k == "type" then 1 else if k == "locale" then 2 else 3
  }

  /** How many options are set. */
  function SetCount(o: ListTemplatesOptions): nat {
    (if o.limit.Some? then 1 else 0)
    + (if o.templateType.Some? then 1 else 0)
    + (if o.locale.Some? then 1 else 0)
  }

  /** The value of the first pair with key `k`, if any. */
  function Lookup(ps: seq<QueryPair>, k: string): Option<string> {
    if |ps| == 0 then None
    else if ps[0].0 == k then Some(ps[0].1)
    else Lookup(ps[1..], k)
  }

  /** `to_query_params`: one pair per option that is set, in the fixed order
      limit, type, locale, so no key is repeated; the limit in decimal, the
      type as its token, the locale as given. */
  function ToQueryParams(o: ListTemplatesOptions): (ps: seq<QueryPair>)
    ensures |ps| == SetCount(o)
    ensures forall i, j :: 0 <= i < j < |ps| ==> KeyRank(ps[i].0) < KeyRank(ps[j].0)
    ensures forall i :: 0 <= i < |ps| ==> KeyRank(ps[i].0) < 3
  {
    var withLimit := if o.limit.Some? then [("limit", ToDecimal(o.limit.value))] else [];
    var withType := withLimit + if o.templateType.Some? then [("type", QueryToken(o.templateType.value))] else [];
    withType + if o.locale.Some? then [("locale", o.locale.value)] else []
  }

  lemma {:induction false} LookupAppend(a: seq<QueryPair>, b: seq<QueryPair>, k: string)
    ensures Lookup(a + b, k) == if Lookup(a, k).Some? then Lookup(a, k) else Lookup(b, k)
  {
    if |a| > 0 {
      assert (a + b)[1..] == a[1..] + b;
      LookupAppend(a[1..], b, k);
    } else {
      assert a + b == b;
    }
  }

  /** Each option that is set is sent under its key with its value; an unset
      one sends no pair. */
  lemma QueryValues(o: ListTemplatesOptions)
    ensures var ps := ToQueryParams(o);
      && Lookup(ps, "limit") == (if o.limit.Some? then Some(ToDecimal(o.limit.value)) else None)
      && Lookup(ps, "type") == (if o.templateType.Some? then Some(QueryToken(o.templateType.value)) else None)
      && Lookup(ps, "locale") == o.locale
  {
    var a := if o.limit.Some? then [("limit", ToDecimal(o.limit.value))] else [];
    var b := if o.templateType.Some? then [("type", QueryToken(o.templateType.value))] else [];
    var c := if o.locale.Some? then [("locale", o.locale.value)] else [];
    assert ToQueryParams(o) == a + b + c;
    LookupThree(a, b, c, "limit");
    LookupThree(a, b, c, "type");
    LookupThree(a, b, c, "locale");
  }

  lemma LookupThree(a: seq<QueryPair>, b: seq<QueryPair>, c: seq<QueryPair>, k: string)
    requires |a| <= 1 && |b| <= 1 && |c| <= 1
    ensures Lookup(a + b + c, k) == if |a| == 1 && a[0].0 == k then Some(a[0].1)
                                     else if |b| == 1 && b[0].0 == k then Some(b[0].1)
                                     else if |c| == 1 && c[0].0 == k then Some(c[0].1)
                                     else None
  {
    LookupAppend(a + b, c, k);
    LookupAppend(a, b, k);
    LookupShort(a, k);
    LookupShort(b, k);
    LookupShort(c, k);
  }

  lemma LookupShort(a: seq<QueryPair>, k: string)
    requires |a| <= 1
    ensures Lookup(a, k) == if |a| == 1 && a[0].0 == k then Some(a[0].1) else None
  {
    if |a| == 1 {
      assert a[1..] == [];
    }
  }

  /** How a receiver reads the query back into options; `None` when a value
      does not parse. */
  function FromQueryParams(ps: seq<QueryPair>): Option<ListTemplatesOptions> {
    var limit := Lookup(ps, "limit");
    var kind := Lookup(ps, "type");
    var n := if limit.Some? then ParseDecimal(limit.value) else None;
    var t := if kind.Some? then ParseWireToken(kind.value) else None;
    if limit.Some? && (n.None? || n.value >= 0x1_0000_0000) then None
    else if kind.Some? && t.None? then None
    else Some(ListTemplatesOptions(
      if limit.Some? then Some(n.value) else None,
      t,
      Lookup(ps, "locale")))
  }

  /** The query carries the options exactly: reading it back gives them. */
  lemma QueryRoundTrip(o: ListTemplatesOptions)
    ensures FromQueryParams(ToQueryParams(o)) == Some(o)
  {
    QueryValues(o);
    if o.templateType.Some? {
      QueryTokenAgreesWithWire(o.templateType.value, o.templateType.value);
      WireTokenRoundTrip(o.templateType.value);
    }
    if o.limit.Some? {
      DecimalRoundTrip(o.limit.value);
    }
  }

  /** No options, no query. */
  lemma NewHasEmptyQuery()
    ensures ToQueryParams(New()) == []
  {
  }

  /** `new().limit(250).template_type(Preset)` asks for `limit=100&type=preset`
      in that order. */
  lemma CappedPresetQuery()
    ensures ToQueryParams(TemplateTypeFilter(Limit(New(), 250), Preset))
            == [("limit", "100"), ("type", "preset")]
  {
    assert ToDecimal(1) == "1";
    assert ToDecimal(10) == "10";
    assert ToDecimal(100) == "100";
  }

  /** One call of a setter. */
  datatype Setter = SetLimit(limit: U32) | SetType(t: TemplateType) | SetLocale(locale: string)

  function Apply(o: ListTemplatesOptions, s: Setter): ListTemplatesOptions {
    match s
    case SetLimit(l) => Limit(o, l)
    case SetType(t) => TemplateTypeFilter(o, t)
    case SetLocale(l) => Locale(o, l)
  }

  /** The options `new()` followed by `calls`, in order, builds. */
  function Build(calls: seq<Setter>): ListTemplatesOptions {
    if |calls| == 0 then New() else Apply(Build(calls[..|calls| - 1]), calls[|calls| - 1])
  }

  /** The argument of the last `limit` call, if any. */
  function LastLimit(calls: seq<Setter>): Option<U32> {
    if |calls| == 0 then None
    else if calls[|calls| - 1].SetLimit? then Some(calls[|calls| - 1].limit)
    else LastLimit(calls[..|calls| - 1])
  }

  /** Options built through the setters hold the last limit asked for,
      capped at the maximum, so they never exceed it. (The field is public,
      so options assigned directly are not covered.) */
  lemma {:induction false} BuiltLimitIsCapped(calls: seq<Setter>)
    ensures LastLimit(calls).None? ==> Build(calls).limit.None?
    ensures LastLimit(calls).Some? ==>
      Build(calls).limit == Some(if LastLimit(calls).value <= MaxLimit then LastLimit(calls).value else MaxLimit)
    ensures Build(calls).limit.Some? ==> Build(calls).limit.value <= MaxLimit
  {
    if |calls| > 0 && !calls[|calls| - 1].SetLimit? {
      BuiltLimitIsCapped(calls[..|calls| - 1]);
    }
  }

  /** The `limit` value such options send is the decimal form of the last
      limit asked for, capped at the maximum. */
  lemma BuiltLimitQuery(calls: seq<Setter>)
    requires LastLimit(calls).Some?
    ensures var l := LastLimit(calls).value;
      Lookup(ToQueryParams(Build(calls)), "limit") == Some(ToDecimal(if l <= MaxLimit then l else MaxLimit))
  {
    BuiltLimitIsCapped(calls);
    QueryValues(Build(calls));
  }
}

=== FILE: resource.dfy ===
/** `TemplatesResource` (src/templates.rs): one operation per remote
    capability. Each builds one HTTP call, hands it to the transport, and
    decodes the reply; it adds no failure of its own. The transport is a
    parameter `send`: whatever it answers for a call, including its errors,
    is taken as given. */
module Resource {
  import opened Wrappers
  import opened Wire
  import opened TemplateEntity
  import opened CreateRequest
  import opened UpdateRequest
  import CloneRequest
  import opened ListOptions
  import opened Envelopes

  datatype Verb = GET | POST | PATCH | DELETE

  /** What the transport is asked to send: `NoBody` for GET and DELETE, the
      serialised body otherwise (`&()` serialises to null). */
  datatype Body = NoBody | JsonBody(value: JVal)

  datatype Call = Call(verb: Verb, path: string, query: seq<QueryPair>, body: Body)

  /** A failure as the caller sees it: the transport's own, or a reply that
      does not decode. */
  datatype ClientError = Transport(detail: string) | Decode(cause: DecodeError)

  type Send = Call -> Result<JVal, ClientError>

  const CollectionPath := "/verify/templates"
  const ItemPrefix := "/verify/templates/"
  const ClonePrefix := "/templates/"

  // ---- Paths ----

  function ItemPath(id: string): (p: string)
    ensures |p| == |ItemPrefix| + |id|
    ensures p[..|ItemPrefix|] == ItemPrefix && p[|ItemPrefix|..] == id
  {
    ItemPrefix + id
  }

  function PublishPath(id: string): (p: string)
    ensures p == ItemPath(id) + "/publish"
  {
    ItemPrefix + id + "/publish"
  }

  function UnpublishPath(id: string): (p: string)
    ensures p == ItemPath(id) + "/unpublish"
  {
    ItemPrefix + id + "/unpublish"
  }

  /** Both clone operations use this path, which lacks the `/verify`
      prefix every other operation has. */
  function ClonePath(id: string): (p: string)
    ensures |p| == |ClonePrefix| + |id| + |"/clone"|
    ensures p[..|ClonePrefix|] == ClonePrefix
    ensures p[|ClonePrefix|..|ClonePrefix| + |id|] == id
    ensures p[|ClonePrefix| + |id|..] == "/clone"
    ensures !StartsWith(p, "/verify")
  {
    var p := ClonePrefix + id + "/clone";
    assert p[1] == 't' && "/verify"[1] == 'v';
    p
  }

  // ---- Operations ----

  datatype Operation =
    | ListOp(options: ListTemplatesOptions)
    | GetOp(id: string)
    | CreateOp(create: CreateTemplateRequest)
    | UpdateOp(id: string, update: UpdateTemplateRequest)
    | DeleteOp(id: string)
    | PublishOp(id: string)
    | UnpublishOp(id: string)
    | CloneOp(id: string)
    | CloneWithNameOp(id: string, name: string)

  /** The call each operation makes. */
  function CallOf(op: Operation): Call {
    match op
    case ListOp(o) => Call(GET, CollectionPath, ToQueryParams(o), NoBody)
    case GetOp(id) => Call(GET, ItemPath(id), [], NoBody)
    case CreateOp(r) => Call(POST, CollectionPath, [], JsonBody(JObj(CreateRequest.Payload(r))))
    case UpdateOp(id, r) => Call(PATCH, ItemPath(id), [], JsonBody(JObj(UpdateRequest.Payload(r))))
    case DeleteOp(id) => Call(DELETE, ItemPath(id), [], NoBody)
    case PublishOp(id) => Call(POST, PublishPath(id), [], JsonBody(JNull))
    case UnpublishOp(id) => Call(POST, UnpublishPath(id), [], JsonBody(JNull))
    case CloneOp(id) => Call(POST, ClonePath(id), [], JsonBody(JNull))
    case CloneWithNameOp(id, name) => Call(POST, ClonePath(id), [], JsonBody(JObj(CloneRequest.Payload(name))))
  }

  /** `r` is what the facade must return for `call`: the transport's failure
      unchanged, else the decoding of its reply, a decoding failure wrapped
      as such. */
  predicate Forwards<T(==)>(send: Send, call: Call, decode: JVal -> Result<T, DecodeError>, r: Result<T, ClientError>) {
    var reply := send(call);
    if reply.Failure? then r == Failure(reply.error)
    else match decode(reply.value)
      case Success(v) => r == Success(v)
      case Failure(e) => r == Failure(Decode(e))
  }

  function Perform<T(==)>(send: Send, call: Call, decode: JVal -> Result<T, DecodeError>): (r: Result<T, ClientError>)
    ensures Forwards(send, call, decode, r)
  {
    var reply :- send(call);
    match decode(reply)
    case Success(v) => Success(v)
    case Failure(e) => Failure(Decode(e))
  }

  // Each facade below asserts that `CallOf` builds the call its `ensures`
  // names; the assertion is only a hint that keeps the solver from
  // unfolding the reply decoders while matching the two.

  function List(send: Send, options: ListTemplatesOptions): (r: Result<TemplateList, ClientError>)
    ensures Forwards(send, Call(GET, "/verify/templates", ToQueryParams(options), NoBody), DecodeTemplateListValue, r)
  {
    var call := CallOf(ListOp(options));
    assert call == Call(GET, "/verify/templates", ToQueryParams(options), NoBody);
    Perform(send, call, DecodeTemplateListValue)
  }

  function Get(send: Send, id: string): (r: Result<Template, ClientError>)
    ensures Forwards(send, Call(GET, "/verify/templates/" + id, [], NoBody), DecodeTemplateValue, r)
  {
    var call := CallOf(GetOp(id));
    assert call == Call(GET, "/verify/templates/" + id, [], NoBody);
    Perform(send, call, DecodeTemplateValue)
  }

  function Create(send: Send, request: CreateTemplateRequest): (r: Result<Template, ClientError>)
    ensures Forwards(send, Call(POST, "/verify/templates", [], JsonBody(JObj(CreateRequest.Payload(request)))),
                     DecodeTemplateValue, r)
  {
    var call := CallOf(CreateOp(request));
    assert call == Call(POST, "/verify/templates", [], JsonBody(JObj(CreateRequest.Payload(request))));
    Perform(send, call, DecodeTemplateValue)
  }

  function Update(send: Send, id: string, request: UpdateTemplateRequest): (r: Result<Template, ClientError>)
    ensures Forwards(send, Call(PATCH, "/verify/templates/" + id, [], JsonBody(JObj(UpdateRequest.Payload(request)))),
                     DecodeTemplateValue, r)
  {
    var call := CallOf(UpdateOp(id, request));
    assert call == Call(PATCH, "/verify/templates/" + id, [], JsonBody(JObj(UpdateRequest.Payload(request))));
    Perform(send, call, DecodeTemplateValue)
  }

  function Delete(send: Send, id: string): (r: Result<DeleteTemplateResponse, ClientError>)
    ensures Forwards(send, Call(DELETE, "/verify/templates/" + id, [], NoBody), DecodeDeleteValue, r)
  {
    var call := CallOf(DeleteOp(id));
    assert call == Call(DELETE, "/verify/templates/" + id, [], NoBody);
    Perform(send, call, DecodeDeleteValue)
  }

  function Publish(send: Send, id: string): (r: Result<Template, ClientError>)
    ensures Forwards(send, Call(POST, "/verify/templates/" + id + "/publish", [], JsonBody(JNull)), DecodeTemplateValue, r)
  {
    var call := CallOf(PublishOp(id));
    assert call == Call(POST, "/verify/templates/" + id + "/publish", [], JsonBody(JNull));
    Perform(send, call, DecodeTemplateValue)
  }

  function Unpublish(send: Send, id: string): (r: Result<Template, ClientError>)
    ensures Forwards(send, Call(POST, "/verify/templates/" + id + "/unpublish", [], JsonBody(JNull)), DecodeTemplateValue, r)
  {
    var call := CallOf(UnpublishOp(id));
    assert call == Call(POST, "/verify/templates/" + id + "/unpublish", [], JsonBody(JNull));
    Perform(send, call, DecodeTemplateValue)
  }

  function Clone(send: Send, id: string): (r: Result<Template, ClientError>)
    ensures Forwards(send, Call(POST, "/templates/" + id + "/clone", [], JsonBody(JNull)), DecodeTemplateValue, r)
  {
    var call := CallOf(CloneOp(id));
    assert call == Call(POST, "/templates/" + id + "/clone", [], JsonBody(JNull));
    Perform(send, call, DecodeTemplateValue)
  }

  function CloneWithName(send: Send, id: string, name: string): (r: Result<Template, ClientError>)
    ensures Forwards(send, Call(POST, "/templates/" + id + "/clone", [], JsonBody(JObj(map["name" := JStr(name)]))),
                     DecodeTemplateValue, r)
  {
    var call := CallOf(CloneWithNameOp(id, name));
    assert call == Call(POST, "/templates/" + id + "/clone", [], JsonBody(JObj(map["name" := JStr(name)])));
    Perform(send, call, DecodeTemplateValue)
  }

  // ---- Properties of the calls ----

  predicate IsClone(op: Operation) {
    op.CloneOp? || op.CloneWithNameOp?
  }

  predicate StartsWith(s: string, prefix: string) {
    |prefix| <= |s| && s[..|prefix|] == prefix
  }

  /** Every operation except the two clones addresses `/verify/templates`;
      the clones address `/templates/` and not `/verify`. */
  lemma PathPrefixes(op: Operation)
    ensures !IsClone(op) ==> StartsWith(CallOf(op).path, CollectionPath)
    ensures IsClone(op) ==> StartsWith(CallOf(op).path, ClonePrefix)
    ensures IsClone(op) ==> !StartsWith(CallOf(op).path, "/verify")
  {
    var p := CallOf(op).path;
    if IsClone(op) {
      assert p[1] == 't';
      assert "/verify"[1] == 'v';
    } else if !op.ListOp? && !op.CreateOp? {
      assert p[..|CollectionPath|] == ItemPath(op.id)[..|ItemPrefix|][..|CollectionPath|];
    }
  }

  /** A path cannot start both ways. */
  lemma PrefixesExclusive(p: string)
    ensures StartsWith(p, ClonePrefix) ==> !StartsWith(p, "/verify")
  {
    if StartsWith(p, ClonePrefix) {
      assert p[1] == p[..|ClonePrefix|][1] == 't';
    }
  }

  /** The call determines the operation and all its arguments: no two
      operations can be confused on the wire, whatever the identifiers hold. */
  lemma CallDeterminesOperation(a: Operation, b: Operation)
    requires CallOf(a) == CallOf(b)
    ensures a == b
  {
    if a.ListOp? && b.ListOp? {
      QueryRoundTrip(a.options);
      QueryRoundTrip(b.options);
    } else if a.CreateOp? && b.CreateOp? {
      CreateRequest.PayloadRoundTrip(a.create);
      CreateRequest.PayloadRoundTrip(b.create);
    } else if a.UpdateOp? && b.UpdateOp? {
      UpdateRequest.PayloadRoundTrip(a.update);
      UpdateRequest.PayloadRoundTrip(b.update);
    } else if (a.PublishOp? || a.UnpublishOp?) && (b.PublishOp? || b.UnpublishOp?) {
      ActionPathsDiffer(a.id, b.id, a.PublishOp?, b.PublishOp?);
    } else if IsClone(a) && IsClone(b) {
      ClonePathInjective(a.id, b.id);
      if a.CloneWithNameOp? && b.CloneWithNameOp? {
        assert CloneRequest.Payload(a.name)["name"] == CloneRequest.Payload(b.name)["name"];
      }
    } else if IsClone(a) != IsClone(b) {
      PathPrefixes(a);
      PathPrefixes(b);
      PrefixesExclusive(CallOf(a).path);
    }
  }

  function ActionSuffix(publish: bool): string {
    if publish then "/publish" else "/unpublish"
  }

  lemma ActionPathsDiffer(a: string, b: string, pa: bool, pb: bool)
    requires ItemPrefix + a + ActionSuffix(pa) == ItemPrefix + b + ActionSuffix(pb)
    ensures a == b && pa == pb
  {
    var p := ItemPrefix + a + ActionSuffix(pa);
    var q := ItemPrefix + b + ActionSuffix(pb);
    var n := |ItemPrefix|;
    if pa == pb {
      assert |a| == |b|;
      assert a == p[n..n + |a|] == q[n..n + |b|] == b;
    } else if pa {
      // eight from the end, "/publish" has '/' where "/unpublish" has 'n'
      SuffixChar(a, ActionSuffix(pa), 0);
      SuffixChar(b, ActionSuffix(pb), 2);
      assert false;
    } else {
      SuffixChar(a, ActionSuffix(pa), 2);
      SuffixChar(b, ActionSuffix(pb), 0);
      assert false;
    }
  }

  lemma SuffixChar(x: string, suffix: string, j: nat)
    ensures j < |suffix| ==> (ItemPrefix + x + suffix)[|ItemPrefix| + |x| + j] == suffix[j]
  {
  }

  lemma ClonePathInjective(a: string, b: string)
    requires ClonePath(a) == ClonePath(b)
    ensures a == b
  {
    var n := |ClonePrefix|;
    assert a == ClonePath(a)[n..n + |a|] == b;
  }

  /** The facade adds no failure of its own: every failure it returns is the
      transport's, unchanged, or a decoding failure of the reply. */
  lemma NoNewFailures(send: Send, op: Operation)
    ensures var reply := send(CallOf(op));
      match op
      case ListOp(o) =>
        List(send, o).Failure? <==> reply.Failure? || DecodeTemplateListValue(reply.value).Failure?
      case GetOp(id) =>
        Get(send, id).Failure? <==> reply.Failure? || DecodeTemplateValue(reply.value).Failure?
      case CreateOp(r) =>
        Create(send, r).Failure? <==> reply.Failure? || DecodeTemplateValue(reply.value).Failure?
      case UpdateOp(id, r) =>
        Update(send, id, r).Failure? <==> reply.Failure? || DecodeTemplateValue(reply.value).Failure?
      case DeleteOp(id) =>
        Delete(send, id).Failure? <==> reply.Failure? || DecodeDeleteValue(reply.value).Failure?
      case PublishOp(id) =>
        Publish(send, id).Failure? <==> reply.Failure? || DecodeTemplateValue(reply.value).Failure?
      case UnpublishOp(id) =>
        Unpublish(send, id).Failure? <==> reply.Failure? || DecodeTemplateValue(reply.value).Failure?
      case CloneOp(id) =>
        Clone(send, id).Failure? <==> reply.Failure? || DecodeTemplateValue(reply.value).Failure?
      case CloneWithNameOp(id, name) =>
        CloneWithName(send, id, name).Failure? <==> reply.Failure? || DecodeTemplateValue(reply.value).Failure?
  {
  }

  /** `get("tmpl_123")` asks for `/verify/templates/tmpl_123`, and
      `clone_with_name("tmpl_123", "Copy")` posts `{"name": "Copy"}` to
      `/templates/tmpl_123/clone`. */
  lemma FacadeExamples()
    ensures CallOf(GetOp("tmpl_123")) == Call(GET, "/verify/templates/tmpl_123", [], NoBody)
    ensures CallOf(CloneWithNameOp("tmpl_123", "Copy"))
         == Call(POST, "/templates/tmpl_123/clone", [], JsonBody(JObj(map["name" := JStr("Copy")])))
  {
  }
}

=== FILE: template.dfy ===
/** The `Template` entity (src/templates.rs): its serde encoding, its decoding
    with defaults and legacy aliases, and the `is_preset` / `is_custom`
    queries. */
module TemplateEntity {
  import opened Wrappers
  import opened Wire
  import opened TemplateKind

  datatype Template = Template(
    id: string,
    name: string,
    body: string,
    templateType: TemplateType,
    locale: Option<string>,
    variables: seq<string>,
    isDefault: bool,
    isPublished: bool,
    createdAt: Option<string>,
    updatedAt: Option<string>)

  const TypeTokens: set<string> := {WireToken(Preset), WireToken(Custom)}

  /** The pairs (canonical key, legacy alias) the decoder accepts. */
  const TemplateAliases: set<(string, string)> := {
    ("template_type", "type"),
    ("is_default", "isDefault"),
    ("is_published", "isPublished"),
    ("created_at", "createdAt"),
    ("updated_at", "updatedAt")
  }

  /** The object serde's derived `Serialize` writes: every field under its
      Rust name, `None` as null, the type as its lower-case token. */
  function EncodeTemplate(t: Template): (m: Object)
    ensures m.Keys == {"id", "name", "body", "template_type", "locale", "variables",
                       "is_default", "is_published", "created_at", "updated_at"}
  {
    map[
      "id" := JStr(t.id),
      "name" := JStr(t.name),
      "body" := JStr(t.body),
      "template_type" := JStr(WireToken(t.templateType)),
      "locale" := OptStr(t.locale),
      "variables" := JArr(Strs(t.variables)),
      "is_default" := JBool(t.isDefault),
      "is_published" := JBool(t.isPublished),
      "created_at" := OptStr(t.createdAt),
      "updated_at" := OptStr(t.updatedAt)
    ]
  }

  /** Exactly the objects the derived `Deserialize` accepts: `id`, `name` and
      `body` present as strings; every other field absent or of its type; no
      field given under both its canonical key and its alias; the type, when
      given, one of the two tokens. Other keys are ignored. */
  predicate TemplateAccepts(m: Object) {
    && FieldOk(m, "id", None, KString) && Present(m, "id", None)
    && FieldOk(m, "name", None, KString) && Present(m, "name", None)
    && FieldOk(m, "body", None, KString) && Present(m, "body", None)
    && FieldOk(m, "template_type", Some("type"), KToken(TypeTokens))
    && FieldOk(m, "locale", None, KOptString)
    && FieldOk(m, "variables", None, KStrings)
    && FieldOk(m, "is_default", Some("isDefault"), KBool)
    && FieldOk(m, "is_published", Some("isPublished"), KBool)
    && FieldOk(m, "created_at", Some("createdAt"), KOptString)
    && FieldOk(m, "updated_at", Some("updatedAt"), KOptString)
  }

  /** The input with every alias resolved to its canonical key, every absent
      defaulted field filled with its default, and unknown keys dropped. */
  function TemplateCanonical(m: Object): Object {
    map[
      "id" := Filled(m, "id", None, JNull),
      "name" := Filled(m, "name", None, JNull),
      "body" := Filled(m, "body", None, JNull),
      "template_type" := Filled(m, "template_type", Some("type"), JStr(WireToken(DefaultType()))),
      "locale" := Filled(m, "locale", None, JNull),
      "variables" := Filled(m, "variables", None, JArr([])),
      "is_default" := Filled(m, "is_default", Some("isDefault"), JBool(false)),
      "is_published" := Filled(m, "is_published", Some("isPublished"), JBool(false)),
      "created_at" := Filled(m, "created_at", Some("createdAt"), JNull),
      "updated_at" := Filled(m, "updated_at", Some("updatedAt"), JNull)
    ]
  }

  /** A `TemplateType` value: a string naming a variant; any other string is
      an unknown variant, never a silent default. */
  function AsTemplateType(v: JVal, at: string): (r: Result<TemplateType, DecodeError>)
    ensures r.Success? <==> Fits(v, KToken(TypeTokens))
    ensures r.Success? ==> v == JStr(WireToken(r.value))
    ensures v.JStr? && v.s !in TypeTokens ==> r == Failure(UnknownVariant(v.s))
  {
    match v
    case JStr(s) =>
      (match ParseWireToken(s)
       case Some(t) => Success(t)
       case None => Failure(UnknownVariant(s)))
    case _ => Failure(InvalidType(at))
  }

  // One field each, as the derived decoder reads it: `FieldOk` says when the
  // read succeeds, and the encoding of what it reads is the field's value
  // with the alias resolved and the default filled in.

  /** A required `String` field; `None` when absent (reported later). */
  function RequiredString(m: Object, key: string): (r: Result<Option<string>, DecodeError>)
    ensures r.Success? <==> FieldOk(m, key, None, KString)
    ensures r.Success? ==> (r.value.Some? <==> Present(m, key, None))
    ensures r.Success? && r.value.Some? ==> Filled(m, key, None, JNull) == JStr(r.value.value)
  {
    // a field without an alias cannot be given twice
    var v := Pick(m, key, None);
    if v.None? then Success(None) else var s :- AsString(v.value, key); Success(Some(s))
  }

  function TypeField(m: Object, key: string, alias: string): (r: Result<TemplateType, DecodeError>)
    ensures r.Success? <==> FieldOk(m, key, Some(alias), KToken(TypeTokens))
    ensures r.Success? ==> Filled(m, key, Some(alias), JStr(WireToken(DefaultType()))) == JStr(WireToken(r.value))
  {
    var v :- FieldValue(m, key, Some(alias));
    if v.None? then Success(DefaultType()) else AsTemplateType(v.value, key)
  }

  function OptStringField(m: Object, key: string, alias: Option<string>): (r: Result<Option<string>, DecodeError>)
    ensures r.Success? <==> FieldOk(m, key, alias, KOptString)
    ensures r.Success? ==> Filled(m, key, alias, JNull) == OptStr(r.value)
  {
    var v :- FieldValue(m, key, alias);
    if v.None? then Success(None) else AsOptString(v.value, key)
  }

  function StringsField(m: Object, key: string): (r: Result<seq<string>, DecodeError>)
    ensures r.Success? <==> FieldOk(m, key, None, KStrings)
    ensures r.Success? ==> Filled(m, key, None, JArr([])) == JArr(Strs(r.value))
  {
    var v := Pick(m, key, None);
    if v.None? then Success([]) else AsStringArray(v.value, key)
  }

  function BoolField(m: Object, key: string, alias: Option<string>): (r: Result<bool, DecodeError>)
    ensures r.Success? <==> FieldOk(m, key, alias, KBool)
    ensures r.Success? ==> Filled(m, key, alias, JBool(false)) == JBool(r.value)
  {
    var v :- FieldValue(m, key, alias);
    if v.None? then Success(false) else AsBool(v.value, key)
  }

  /** serde's derived decoder for `Template`. Fields are read in declaration
      order; a required field's absence is reported only after every present
      field has been read, as the derived decoder does. */
  function DecodeTemplate(m: Object): (r: Result<Template, DecodeError>)
    ensures r.Success? <==> TemplateAccepts(m)
    ensures r.Success? ==> EncodeTemplate(r.value) == TemplateCanonical(m)
  {
    var id :- RequiredString(m, "id");
    var name :- RequiredString(m, "name");
    var body :- RequiredString(m, "body");
    var ty :- TypeField(m, "template_type", "type");
    var locale :- OptStringField(m, "locale", None);
    var vars :- StringsField(m, "variables");
    var isDefault :- BoolField(m, "is_default", Some("isDefault"));
    var isPublished :- BoolField(m, "is_published", Some("isPublished"));
    var created :- OptStringField(m, "created_at", Some("createdAt"));
    var updated :- OptStringField(m, "updated_at", Some("updatedAt"));
    if id.None? then Failure(MissingField("id"))
    else if name.None? then Failure(MissingField("name"))
    else if body.None? then Failure(MissingField("body"))
    else Success(Template(id.value, name.value, body.value, ty, locale, vars,
                          isDefault, isPublished, created, updated))
  }

  /** A response body: a `Template` must be a JSON object. */
  function DecodeTemplateValue(v: JVal): (r: Result<Template, DecodeError>)
    ensures r.Success? <==> v.JObj? && TemplateAccepts(v.fields)
    ensures r.Success? ==> JObj(EncodeTemplate(r.value)) == JObj(TemplateCanonical(v.fields))
  {
    match v
    case JObj(m) => DecodeTemplate(m)
    case _ => Failure(InvalidType("Template"))
  }

  function IsPreset(t: Template): (r: bool)
    ensures r <==> WireToken(t.templateType) == "preset"
  {
    t.templateType == Preset
  }

  function IsCustom(t: Template): (r: bool)
    ensures r <==> WireToken(t.templateType) == "custom"
  {
    t.templateType == Custom
  }

  /** Exactly one of `is_preset` and `is_custom` holds, and it agrees with
      the token the template is written with. */
  lemma ExactlyOneKind(t: Template)
    ensures IsPreset(t) != IsCustom(t)
    ensures IsPreset(t) <==> EncodeTemplate(t)["template_type"] == JStr("preset")
    ensures IsCustom(t) <==> EncodeTemplate(t)["template_type"] == JStr("custom")
  {
  }

  /** The encoder loses nothing: distinct templates encode differently. */
  lemma EncodeTemplateInjective(a: Template, b: Template)
    requires EncodeTemplate(a) == EncodeTemplate(b)
    ensures a == b
  {
    EncodedFields(a);
    EncodedFields(b);
    StrsInjective(a.variables, b.variables);
    WireTokenInjective(a.templateType, b.templateType);
  }

  /** What the encoder writes under each key. */
  lemma EncodedFields(t: Template)
    ensures var e := EncodeTemplate(t);
      && e["id"] == JStr(t.id) && e["name"] == JStr(t.name) && e["body"] == JStr(t.body)
      && e["template_type"] == JStr(WireToken(t.templateType)) && e["locale"] == OptStr(t.locale)
      && e["variables"] == JArr(Strs(t.variables)) && e["is_default"] == JBool(t.isDefault)
      && e["is_published"] == JBool(t.isPublished) && e["created_at"] == OptStr(t.createdAt)
      && e["updated_at"] == OptStr(t.updatedAt)
  {
  }

  /** The encoder never writes a legacy alias. */
  lemma EncodedNoAliases(t: Template)
    ensures var e := EncodeTemplate(t);
      "type" !in e && "isDefault" !in e && "isPublished" !in e && "createdAt" !in e && "updatedAt" !in e
  {
  }

  lemma EncodedAccepted(t: Template)
    ensures TemplateAccepts(EncodeTemplate(t))
  {
    var e := EncodeTemplate(t);
    EncodedFields(t);
    EncodedNoAliases(t);
    GivenOnce(e, "id", None, KString);
    GivenOnce(e, "name", None, KString);
    GivenOnce(e, "body", None, KString);
    GivenOnce(e, "template_type", Some("type"), KToken(TypeTokens));
    GivenOnce(e, "locale", None, KOptString);
    GivenOnce(e, "variables", None, KStrings);
    GivenOnce(e, "is_default", Some("isDefault"), KBool);
    GivenOnce(e, "is_published", Some("isPublished"), KBool);
    GivenOnce(e, "created_at", Some("createdAt"), KOptString);
    GivenOnce(e, "updated_at", Some("updatedAt"), KOptString);
  }

  /** A field given under its canonical key only, with a value of its
      shape, is read. */
  lemma GivenOnce(m: Object, key: string, alias: Option<string>, k: Kind)
    requires key in m && Fits(m[key], k)
    requires alias.None? || alias.value !in m
    ensures FieldOk(m, key, alias, k) && Present(m, key, alias)
  {
  }

  lemma EncodedCanonical(t: Template)
    ensures TemplateCanonical(EncodeTemplate(t)) == EncodeTemplate(t)
  {
    var e := EncodeTemplate(t);
    var c := TemplateCanonical(e);
    assert "type" !in e && "isDefault" !in e && "isPublished" !in e;
    assert "createdAt" !in e && "updatedAt" !in e;
    assert c.Keys == e.Keys;
    assert c["template_type"] == e["template_type"];
    assert c["variables"] == e["variables"];
    assert c["created_at"] == e["created_at"];
    assert c["updated_at"] == e["updated_at"];
  }

  /** Decoding what the encoder wrote gives the template back. */
  lemma DecodeEncodeTemplate(t: Template)
    ensures DecodeTemplate(EncodeTemplate(t)) == Success(t)
  {
    var e := EncodeTemplate(t);
    EncodedAccepted(t);
    EncodedCanonical(t);
    EncodeTemplateInjective(DecodeTemplate(e).value, t);
  }

  /** The same, for a template sent as a JSON object. */
  lemma DecodeEncodeTemplateValue(t: Template)
    ensures DecodeTemplateValue(JObj(EncodeTemplate(t))) == Success(t)
  {
    DecodeEncodeTemplate(t);
  }

  /** `id`, `name` and `body` are required. */
  lemma TemplateRequiredKeys(m: Object)
    requires "id" !in m || "name" !in m || "body" !in m
    ensures DecodeTemplate(m).Failure?
  {
  }

  /** A type token other than `preset` / `custom` is rejected, under either
      spelling of the key. */
  lemma TemplateRejectsUnknownType(m: Object, key: string, token: string)
    requires key == "template_type" || key == "type"
    requires key in m && m[key] == JStr(token)
    requires token != "preset" && token != "custom"
    ensures DecodeTemplate(m).Failure?
  {
  }

  /** Giving one field under both its key and its alias is an error, whatever
      the two values are. */
  lemma TemplateDuplicateAlias(m: Object, key: string, alias: string)
    requires (key, alias) in TemplateAliases
    requires key in m && alias in m
    ensures DecodeTemplate(m).Failure?
  {
  }

  /** Absent optional fields take their defaults: type `custom`, no
      variables, not default, not published, no locale or timestamps. */
  lemma TemplateDefaults(m: Object)
    requires DecodeTemplate(m).Success?
    ensures var t := DecodeTemplate(m).value;
      && ("template_type" !in m && "type" !in m ==> t.templateType == Custom)
      && ("locale" !in m ==> t.locale == None)
      && ("variables" !in m ==> t.variables == [])
      && ("is_default" !in m && "isDefault" !in m ==> !t.isDefault)
      && ("is_published" !in m && "isPublished" !in m ==> !t.isPublished)
      && ("created_at" !in m && "createdAt" !in m ==> t.createdAt == None)
      && ("updated_at" !in m && "updatedAt" !in m ==> t.updatedAt == None)
  {
    var t := DecodeTemplate(m).value;
    var e := EncodeTemplate(t);
    assert e == TemplateCanonical(m);
    if "variables" !in m {
      assert e["variables"] == JArr([]);
      assert |Strs(t.variables)| == 0;
    }
    if "template_type" !in m && "type" !in m {
      assert e["template_type"] == JStr(WireToken(Custom));
      WireTokenRoundTrip(Custom);
    }
  }

  /** `a` and `b` give the field `key`, spelled also `alias`, the same way:
      the same value picked, and the same verdict on a double spelling. */
  predicate SameField(a: Object, b: Object, key: string, alias: Option<string>) {
    Pick(a, key, alias) == Pick(b, key, alias) && Duplicate(a, key, alias) == Duplicate(b, key, alias)
  }

  /** `a` and `b` give every field of `Template` the same way. */
  predicate SameTemplateFields(a: Object, b: Object) {
    && SameField(a, b, "id", None)
    && SameField(a, b, "name", None)
    && SameField(a, b, "body", None)
    && SameField(a, b, "template_type", Some("type"))
    && SameField(a, b, "locale", None)
    && SameField(a, b, "variables", None)
    && SameField(a, b, "is_default", Some("isDefault"))
    && SameField(a, b, "is_published", Some("isPublished"))
    && SameField(a, b, "created_at", Some("createdAt"))
    && SameField(a, b, "updated_at", Some("updatedAt"))
  }

  lemma SameFieldsSameDecoding(a: Object, b: Object)
    requires SameTemplateFields(a, b)
    ensures DecodeTemplate(a) == DecodeTemplate(b)
  {
    assert RequiredString(a, "id") == RequiredString(b, "id");
    assert RequiredString(a, "name") == RequiredString(b, "name");
    assert RequiredString(a, "body") == RequiredString(b, "body");
    assert TypeField(a, "template_type", "type") == TypeField(b, "template_type", "type");
    assert OptStringField(a, "locale", None) == OptStringField(b, "locale", None);
    assert StringsField(a, "variables") == StringsField(b, "variables");
    assert BoolField(a, "is_default", Some("isDefault")) == BoolField(b, "is_default", Some("isDefault"));
    assert BoolField(a, "is_published", Some("isPublished")) == BoolField(b, "is_published", Some("isPublished"));
    assert OptStringField(a, "created_at", Some("createdAt")) == OptStringField(b, "created_at", Some("createdAt"));
    assert OptStringField(a, "updated_at", Some("updatedAt")) == OptStringField(b, "updated_at", Some("updatedAt"));
  }

  /** A value under a legacy alias decodes exactly as under the canonical
      key. */
  lemma TemplateAliasEquivalent(m: Object, key: string, alias: string, v: JVal)
    requires (key, alias) in TemplateAliases
    requires key !in m && alias !in m
    ensures DecodeTemplate(m[alias := v]) == DecodeTemplate(m[key := v])
  {
    AliasSameFields(m, key, alias, v);
    SameFieldsSameDecoding(m[alias := v], m[key := v]);
  }

  lemma AliasSameFields(m: Object, key: string, alias: string, v: JVal)
    requires (key, alias) in TemplateAliases
    requires key !in m && alias !in m
    ensures SameTemplateFields(m[alias := v], m[key := v])
  {
    FieldAgrees(m, key, alias, v, "id", None);
    FieldAgrees(m, key, alias, v, "name", None);
    FieldAgrees(m, key, alias, v, "body", None);
    FieldAgrees(m, key, alias, v, "template_type", Some("type"));
    FieldAgrees(m, key, alias, v, "locale", None);
    FieldAgrees(m, key, alias, v, "variables", None);
    FieldAgrees(m, key, alias, v, "is_default", Some("isDefault"));
    FieldAgrees(m, key, alias, v, "is_published", Some("isPublished"));
    FieldAgrees(m, key, alias, v, "created_at", Some("createdAt"));
    FieldAgrees(m, key, alias, v, "updated_at", Some("updatedAt"));
  }

  /** Field `(k, a)` reads the same whether `v` is added under `key` or
      under its alias: it is that very field, or it spells neither. */
  lemma FieldAgrees(m: Object, key: string, alias: string, v: JVal, k: string, a: Option<string>)
    requires key !in m && alias !in m && key != alias
    requires (k == key && a == Some(alias)) || (k != key && k != alias && (a.None? || (a.value != key && a.value != alias)))
    ensures Pick(m[alias := v], k, a) == Pick(m[key := v], k, a)
    ensures Duplicate(m[alias := v], k, a) == Duplicate(m[key := v], k, a)
  {
  }
}

=== FILE: template_kind.dfy ===
/** `TemplateType` (src/templates.rs): a template is either a server-provided
    preset or a user-authored custom template. On the wire the variant is its
    name lower-cased (serde's `rename_all = "lowercase"`). */
module TemplateKind {
  import opened Wrappers

  datatype TemplateType = Preset | Custom

  /** The `Default` implementation. */
  function DefaultType(): TemplateType {
    Custom
  }

  /** The variant's name as written in the Rust enum. */
  function VariantName(t: TemplateType): string {
    match t
    case Preset => "Preset"
    case Custom => "Custom"
  }

  function LowerChar(c: char): char {
    if 'A' <= c <= 'Z' then (c as int - 'A' as int + 'a' as int) as char else c
  }

  /** ASCII lower-casing, as serde's `lowercase` rename rule applies it. */
  function Lowercase(s: string): (r: string)
    ensures |r| == |s|
    ensures forall i :: 0 <= i < |s| ==> r[i] == LowerChar(s[i])
  {
    if |s| == 0 then "" else [LowerChar(s[0])] + Lowercase(s[1..])
  }

  /** The token serde writes and accepts for a variant (see
      `WireTokenIsLowercasedName` for the rename rule it follows). */
  function WireToken(t: TemplateType): string {
    match t
    case Preset => "preset"
    case Custom => "custom"
  }

  /** serde's matching of a string against the variants' tokens. */
  function ParseWireToken(s: string): (r: Option<TemplateType>)
    ensures r.Some? <==> s in {WireToken(Preset), WireToken(Custom)}
    ensures r.Some? ==> WireToken(r.value) == s
  {
    if s == WireToken(Preset) then Some(Preset)
    else if s == WireToken(Custom) then Some(Custom)
    else None
  }

  /** serde's `rename_all = "lowercase"`: a variant's token is its Rust name
      lower-cased. */
  lemma WireTokenIsLowercasedName(t: TemplateType)
    ensures WireToken(t) == Lowercase(VariantName(t))
  {
    match t
    case Preset => assert Lowercase("Preset") == "preset";
    case Custom => assert Lowercase("Custom") == "custom";
  }

  /** Each variant's token reads back as that variant. */
  lemma WireTokenRoundTrip(t: TemplateType)
    ensures ParseWireToken(WireToken(t)) == Some(t)
  {
  }

  /** The wire tokens tell the variants apart. */
  lemma WireTokenInjective(a: TemplateType, b: TemplateType)
    requires WireToken(a) == WireToken(b)
    ensures a == b
  {
  }
}

=== FILE: update_request.dfy ===
/** `UpdateTemplateRequest` (src/templates.rs): a partial update in which
    every field is optional and only the fields that are set are sent. */
module UpdateRequest {
  import opened Wrappers
  import opened Wire

  datatype UpdateTemplateRequest = UpdateTemplateRequest(
    name: Option<string>,
    body: Option<string>,
    locale: Option<string>,
    isPublished: Option<bool>)

  /** `UpdateTemplateRequest::new` (the derived `Default`): nothing set. */
  function New(): (r: UpdateTemplateRequest)
    ensures r.name.None? && r.body.None? && r.locale.None? && r.isPublished.None?
    ensures SetKeys(r) == {}
  {
    UpdateTemplateRequest(None, None, None, None)
  }

  /** The wire names of the fields that are set. */
  function SetKeys(r: UpdateTemplateRequest): set<string> {
    (if r.name.Some? then {"name"} else {})
    + (if r.body.Some? then {"body"} else {})
    + (if r.locale.Some? then {"locale"} else {})
    + (if r.isPublished.Some? then {"isPublished"} else {})
  }

  /** The JSON object serde writes: each field under its wire name when set,
      absent (never null) when unset. */
  function Payload(r: UpdateTemplateRequest): (m: Object)
    ensures m.Keys == SetKeys(r)
    ensures forall k :: k in m ==> m[k] != JNull
  {
    var m0: Object := map[];
    var m1 := if r.name.Some? then m0["name" := JStr(r.name.value)] else m0;
    var m2 := if r.body.Some? then m1["body" := JStr(r.body.value)] else m1;
    var m3 := if r.locale.Some? then m2["locale" := JStr(r.locale.value)] else m2;
    if r.isPublished.Some? then m3["isPublished" := JBool(r.isPublished.value)] else m3
  }

  function Name(r: UpdateTemplateRequest, name: string): (r': UpdateTemplateRequest)
    ensures r'.name == Some(name)
    ensures r'.body == r.body && r'.locale == r.locale && r'.isPublished == r.isPublished
    ensures Payload(r') == Payload(r)["name" := JStr(name)]
  {
    r.(name := Some(name))
  }

  function Body(r: UpdateTemplateRequest, body: string): (r': UpdateTemplateRequest)
    ensures r'.body == Some(body)
    ensures r'.name == r.name && r'.locale == r.locale && r'.isPublished == r.isPublished
    ensures Payload(r') == Payload(r)["body" := JStr(body)]
  {
    r.(body := Some(body))
  }

  function Locale(r: UpdateTemplateRequest, locale: string): (r': UpdateTemplateRequest)
    ensures r'.locale == Some(locale)
    ensures r'.name == r.name && r'.body == r.body && r'.isPublished == r.isPublished
    ensures Payload(r') == Payload(r)["locale" := JStr(locale)]
  {
    r.(locale := Some(locale))
  }

  function Published(r: UpdateTemplateRequest, published: bool): (r': UpdateTemplateRequest)
    ensures r'.isPublished == Some(published)
    ensures r'.name == r.name && r'.body == r.body && r'.locale == r.locale
    ensures Payload(r') == Payload(r)["isPublished" := JBool(published)]
  {
    r.(isPublished := Some(published))
  }

  /** How a receiver reads the payload back: only the four known keys, each
      of its type; an absent key leaves the field unset. */
  function ParsePayload(m: Object): (r: Option<UpdateTemplateRequest>)
    ensures r.Some? ==> SetKeys(r.value) == m.Keys
  {
    if !(m.Keys <= {"name", "body", "locale", "isPublished"}) then None
    else if "name" in m && !m["name"].JStr? then None
    else if "body" in m && !m["body"].JStr? then None
    else if "locale" in m && !m["locale"].JStr? then None
    else if "isPublished" in m && !m["isPublished"].JBool? then None
    else Some(UpdateTemplateRequest(
      if "name" in m then Some(m["name"].s) else None,
      if "body" in m then Some(m["body"].s) else None,
      if "locale" in m then Some(m["locale"].s) else None,
      if "isPublished" in m then Some(m["isPublished"].b) else None))
  }

  /** The payload carries exactly the update: reading it back gives the
      request, so unset and set-to-something are never confused. */
  lemma PayloadRoundTrip(r: UpdateTemplateRequest)
    ensures ParsePayload(Payload(r)) == Some(r)
  {
  }

  /** The empty builder sends the empty object, and a builder with exactly
      one field set sends exactly that one key. */
  lemma SingleFieldPayloads(n: string, b: string, l: string, p: bool)
    ensures Payload(New()) == map[]
    ensures Payload(Name(New(), n)) == map["name" := JStr(n)]
    ensures Payload(Body(New(), b)) == map["body" := JStr(b)]
    ensures Payload(Locale(New(), l)) == map["locale" := JStr(l)]
    ensures Payload(Published(New(), p)) == map["isPublished" := JBool(p)]
  {
  }

  /** Setting a field twice keeps the later value. */
  lemma SettersOverwrite(r: UpdateTemplateRequest, a: string, b: string, p: bool, q: bool)
    ensures Name(Name(r, a), b) == Name(r, b)
    ensures Body(Body(r, a), b) == Body(r, b)
    ensures Locale(Locale(r, a), b) == Locale(r, b)
    ensures Published(Published(r, p), q) == Published(r, q)
  {
  }
}

=== FILE: wire.dfy ===
/** An abstract model of the JSON the client exchanges with the service, and of
    the field-level rules of serde's derived decoder: a field may have one legacy
    alias, both spellings of one field is a duplicate-field error, a missing
    field with a default takes the default, and keys the type does not name are
    ignored. */
module Wire {
  import opened Wrappers

  /** A JSON value. Numbers are integers only. */
  datatype JVal =
    | JNull
    | JBool(b: bool)
    | JNum(n: int)
    | JStr(s: string)
    | JArr(items: seq<JVal>)
    | JObj(fields: map<string, JVal>)

  /** A JSON object: key to value. */
  type Object = map<string, JVal>

  /** Rust's `u32` and `i32`. */
  type U32 = x: int | 0 <= x < 0x1_0000_0000
  type I32 = x: int | -0x8000_0000 <= x < 0x8000_0000

  /** The ways serde's derived decoder rejects an input. */
  datatype DecodeError =
    | MissingField(field: string)
    | DuplicateField(field: string)
    | InvalidType(at: string)
    | InvalidValue(at: string)
    | UnknownVariant(token: string)

  /** The shape of value a field's Rust type admits. */
  datatype Kind =
    | KString                       // String
    | KOptString                    // Option<String>: null or a string
    | KBool                         // bool
    | KStrings                      // Vec<String>
    | KI32                          // i32
    | KToken(tokens: set<string>)   // a unit-only enum: one of its wire tokens

  predicate Fits(v: JVal, k: Kind) {
    match k
    case KString => v.JStr?
    case KOptString => v.JNull? || v.JStr?
    case KBool => v.JBool?
    case KStrings => v.JArr? && forall i :: 0 <= i < |v.items| ==> v.items[i].JStr?
    case KI32 => v.JNum? && -0x8000_0000 <= v.n < 0x8000_0000
    case KToken(tokens) => v.JStr? && v.s in tokens
  }

  /** Both the canonical key and the alias of one field are present. */
  predicate Duplicate(m: Object, key: string, alias: Option<string>) {
    alias.Some? && key in m && alias.value in m
  }

  /** The value given for a field under either of its spellings, if any. */
  function Pick(m: Object, key: string, alias: Option<string>): Option<JVal> {
    if key in m then Some(m[key])
    else if alias.Some? && alias.value in m then Some(m[alias.value])
    else None
  }

  predicate Present(m: Object, key: string, alias: Option<string>) {
    Pick(m, key, alias).Some?
  }

  /** The field is spelled at most once and, when given, has the right shape. */
  predicate FieldOk(m: Object, key: string, alias: Option<string>, k: Kind) {
    && !Duplicate(m, key, alias)
    && (Present(m, key, alias) ==> Fits(Pick(m, key, alias).value, k))
  }

  /** The field's value, or `default` when it is absent under both spellings. */
  function Filled(m: Object, key: string, alias: Option<string>, default: JVal): JVal {
    Pick(m, key, alias).GetOr(default)
  }

  /** Looks a field up the way serde's derived decoder does: an alias names
      the same field, so a map holding both spellings is a duplicate-field
      error rather than a choice of one over the other. */
  function FieldValue(m: Object, key: string, alias: Option<string>): (r: Result<Option<JVal>, DecodeError>)
    ensures r.Success? <==> !Duplicate(m, key, alias)
    ensures r.Success? ==> r.value == Pick(m, key, alias)
    ensures r.Failure? ==> r.error == DuplicateField(key)
  {
    if Duplicate(m, key, alias) then Failure(DuplicateField(key))
    else Success(Pick(m, key, alias))
  }

  // Encoders for the value shapes above.

  function OptStr(o: Option<string>): JVal {
    match o
    case None => JNull
    case Some(s) => JStr(s)
  }

  function Strs(ss: seq<string>): (vs: seq<JVal>)
    ensures |vs| == |ss|
    ensures forall i :: 0 <= i < |ss| ==> vs[i] == JStr(ss[i])
  {
    if |ss| == 0 then [] else [JStr(ss[0])] + Strs(ss[1..])
  }

  // Decoders for the value shapes above, each accepting exactly what `Fits`
  // admits and inverting the matching encoder.

  function AsString(v: JVal, at: string): (r: Result<string, DecodeError>)
    ensures r.Success? <==> Fits(v, KString)
    ensures r.Success? ==> v == JStr(r.value)
  {
    match v
    case JStr(s) => Success(s)
    case _ => Failure(InvalidType(at))
  }

  function AsOptString(v: JVal, at: string): (r: Result<Option<string>, DecodeError>)
    ensures r.Success? <==> Fits(v, KOptString)
    ensures r.Success? ==> OptStr(r.value) == v
  {
    match v
    case JNull => Success(None)
    case JStr(s) => Success(Some(s))
    case _ => Failure(InvalidType(at))
  }

  function AsBool(v: JVal, at: string): (r: Result<bool, DecodeError>)
    ensures r.Success? <==> Fits(v, KBool)
    ensures r.Success? ==> v == JBool(r.value)
  {
    match v
    case JBool(b) => Success(b)
    case _ => Failure(InvalidType(at))
  }

  /** An integer that does not fit in 32 signed bits is an invalid value, not
      a wrap-around. */
  function AsI32(v: JVal, at: string): (r: Result<I32, DecodeError>)
    ensures r.Success? <==> Fits(v, KI32)
    ensures r.Success? ==> v == JNum(r.value)
    ensures v.JNum? && r.Failure? ==> r.error == InvalidValue(at)
  {
    match v
    case JNum(n) =>
      if -0x8000_0000 <= n < 0x8000_0000 then Success(n) else Failure(InvalidValue(at))
    case _ => Failure(InvalidType(at))
  }

  /** Decodes an array of strings; the first non-string element fails it. */
  function AsStrings(items: seq<JVal>, at: string): (r: Result<seq<string>, DecodeError>)
    ensures r.Success? <==> forall i :: 0 <= i < |items| ==> items[i].JStr?
    ensures r.Success? ==> Strs(r.value) == items
  {
    if |items| == 0 then Success([])
    else
      var head :- AsString(items[0], at);
      var tail :- AsStrings(items[1..], at);
      assert forall i :: 1 <= i < |items| ==> items[i] == items[1..][i - 1];
      assert Strs([head] + tail)[1..] == Strs(tail);
      Success([head] + tail)
  }

  /** A `Vec<T>`: each element decoded in turn, the first failure failing
      the whole array. */
  function DecodeEach<T>(items: seq<JVal>, decode: JVal -> Result<T, DecodeError>): (r: Result<seq<T>, DecodeError>)
    ensures r.Success? <==> forall i :: 0 <= i < |items| ==> decode(items[i]).Success?
    ensures r.Success? ==> |r.value| == |items|
    ensures r.Success? ==> forall i :: 0 <= i < |items| ==> decode(items[i]) == Success(r.value[i])
  {
    if |items| == 0 then Success([])
    else
      var head :- decode(items[0]);
      var tail :- DecodeEach(items[1..], decode);
      assert forall i :: 1 <= i < |items| ==> items[i] == items[1..][i - 1];
      Success([head] + tail)
  }

  /** An array decodes to the values its elements decode to. */
  lemma DecodeEachOf<T>(items: seq<JVal>, decode: JVal -> Result<T, DecodeError>, vs: seq<T>)
    requires |items| == |vs|
    requires forall i :: 0 <= i < |items| ==> decode(items[i]) == Success(vs[i])
    ensures DecodeEach(items, decode) == Success(vs)
  {
    var r := DecodeEach(items, decode);
    assert r.Success?;
    assert forall i :: 0 <= i < |items| ==> r.value[i] == vs[i];
    assert r.value == vs;
  }

  /** A `Vec<String>` field: an array whose elements are all strings. */
  function AsStringArray(v: JVal, at: string): (r: Result<seq<string>, DecodeError>)
    ensures r.Success? <==> Fits(v, KStrings)
    ensures r.Success? ==> v == JArr(Strs(r.value))
  {
    match v
    case JArr(items) => AsStrings(items, at)
    case _ => Failure(InvalidType(at))
  }

  lemma StrsInjective(a: seq<string>, b: seq<string>)
    requires Strs(a) == Strs(b)
    ensures a == b
  {
    assert |a| == |b|;
    forall i | 0 <= i < |a|
      ensures a[i] == b[i]
    {
      assert Strs(a)[i] == Strs(b)[i];
    }
  }
}

=== FILE: wrappers.dfy ===
/** Failure-compatible Option and Result types used throughout the model. */
module Wrappers {

  /** An optional value; the model's counterpart of Rust's `Option`. */
  datatype Option<+T> = None | Some(value: T) {

    /** Returns the wrapped value, or `default` when there is none. */
    function GetOr(default: T): T {
      match this
      case Some(v) => v
      case None => default
    }
  }

  /** Either a value or an error; usable with `:-` to propagate the error. */
  datatype Result<+T, +E> = Success(value: T) | Failure(error: E) {

    predicate IsFailure() {
      Failure?
    }

    function PropagateFailure<U>(): Result<U, E>
      requires Failure?
    {
      Failure(error)
    }

    function Extract(): T
      requires Success?
    {
      value
    }
  }
}
